=== FILE: README.md ===
# net-cat chat server: registry, admission and broadcast

A Dafny model of the connection registry and broadcast pipeline of a TCP chat
relay (`server/server.go`). Clients connect, send a display name, and then
exchange lines. The server stamps each line with a timestamp and the sender's
name. Join and leave notices go to everybody else.

The server's shared state is one immutable `ChatServer.Server` value:

- `clients`: the map from connection to client record (name, peer address);
- `activeClients` and `maxClients`: the gate counter and its limit;
- `history`: the append-only list of broadcast lines (`oldMsgs`);
- `outbox`: the lines queued on the `Msgs` channel;
- `handlers`: where each live connection handler currently stands. This
  replaces the goroutines. A handler's `Joining`/`Chatting` phase carries the
  handler's own copy of its client record.

Each step of a handler is one atomic transition: `Gate`, `AbortGreeting`,
`SubmitName`, `Join`, `Speak` and `Leave`. `Join` and `Leave` each merge
several sections of the code into one step (see "## Left out"). `Step` dispatches an `Event` to them, and `Run` plays a sequence of
events. Both take a `Build`: `AsWritten` is the code, whose greeting failure
keeps its counter slot (see "## Findings"), and `Corrected` gives the slot
back. `Consistent` is the invariant of both builds. It says:

- the counter is at most the cap and at least the number of live handlers;
- the registry holds exactly the handlers past admission, with their records;
- registered names are pairwise distinct, non-empty and already trimmed.

The cap (`Capacity`) is `maxClients`, or 0 when `maxClients` is negative. The
gate then admits nobody. No step changes `maxClients`, so the cap of every
state a run reaches is the one the server was created with.

`Leaked` is the counter minus the number of live handlers, and `Valid` is
`Consistent` with nothing leaked. `Invariants` proves that every step of
either build keeps `Consistent`, and so does every run from `NewServer`.
Consequences: in every reachable state of the code as written, the registry
size never exceeds the counter, the counter never exceeds the cap given to
`NewServer`, and names stay distinct. A run of the code leaks exactly one slot per greeting failure.
A corrected run leaks none, so it keeps `Valid`. Three more results hold for
both builds:

- a notice never reaches the connection that caused it;
- the history only grows, one entry at a time, at its end;
- a step leaves the limit alone. It leaves the chat-line queue alone unless it
  reads a chat line, and it leaves every other connection's handler alone.

Modules: `Text` (Go's `strings.TrimSpace`), `Messages` (the texts the server
writes, and a parser for the stamped chat line), `Registry` (client records,
the name scan), `Relay` (broadcast fan-out and replay), `ChatServer` (state
and transitions), `Invariants` (step and run invariants) and `Behaviour`
(observable orderings and the greeting leak). `Wrappers` holds `Option`.

## Behaviour of the code worth noting

The model follows the code in each of these cases.

- Blank lines are forwarded. After the trim at server/server.go:206 nothing
  checks for an empty line, so a blank line is queued as `"[ts][name]: "`
  (`Behaviour.BlankLineForwarded`).
- The gate counts handlers, not registry entries. The capacity check
  (server/server.go:96) compares `activeClients` with the limit before any
  name is read. A connection refused there gets the capacity message and no
  name prompt.
- The join replay can repeat a line. The client is registered
  (server/server.go:162) before its join notice and replay
  (server/server.go:168-172). A notice broadcast in between therefore reaches
  the joiner live and again in the replay (`Behaviour.ReplayRepeatsLiveNotice`).
- The leave notice goes out before the delete (server/server.go:200-202). It
  excludes the leaver anyway, so the recipients are the same as after the
  delete.
- The history holds only join and leave notices. Chat lines go to the `Msgs`
  channel (server/server.go:212). No code that reads the channel is part of
  this model, so chat lines never reach `Broadcast` or the history.

## Model

| member | source | states |
|---|---|---|
| `Text.TrimSpace` | server/server.go:132 | strings.TrimSpace; its properties are stated by `Text.TrimSpaceBounds` and `Text.TrimSpaceUnique` |
| `Text.SkipSpaces` | server/server.go:132 | the leading cut: everything skipped is space, and it stops at a non-space or the end |
| `Text.SkipSpacesBack` | server/server.go:132 | the trailing cut: everything skipped is space, and it stops just after a non-space or at the start |
| `Text.TrimSpaceBounds` | server/server.go:132 | TrimSpace returns a trimming of the input: a slice with only spaces outside it that neither starts nor ends with a space |
| `Text.TrimSpaceEdges` | server/server.go:132 | a non-empty trimmed string neither starts nor ends with a space |
| `Text.TrimSpaceUnique` | server/server.go:132 | any slice meeting that reference definition is exactly what TrimSpace returns |
| `Text.TrimSpaceEmptyIff` | server/server.go:132-134 | the trimmed line is empty if and only if the line is all space |
| `Text.TrimSpaceIdempotent` | server/server.go:132 | trimming a trimmed string changes nothing |
| `Text.TrimSpaceDropsDelimiter` | server/server.go:121-132 | the newline that ReadString leaves on the line never changes the trimmed result |
| `Messages.ChatLine` | server/server.go:210 | the `[%s][%s]: %s` line; that it can be read back is stated by `Messages.ParseChatLineInverts` and `Messages.ParseChatLineSound` |
| `Messages.ParseChatLineInverts` | server/server.go:210 | a stamped line whose timestamp and name hold no ']' parses back into the same timestamp, name and body |
| `Messages.ChatLineAmbiguous` | server/server.go:210 | with a ']' in the name, two different timestamp and name pairs give the same line, so the ']' condition of `Messages.ParseChatLineInverts` cannot be dropped |
| `Messages.ParseChatLineSound` | server/server.go:210 | every line that parses is the stamped line built from the parts it yields |
| `Registry.SearchName` | server/server.go:145-156 | the scan over the registered clients reports a match if and only if some client has exactly the requested name |
| `Registry.RegisterKeepsNamesDistinct` | server/server.go:145-162 | adding an entry under a name nobody holds keeps names pairwise distinct and leaves every other entry unchanged |
| `Registry.UnregisterKeepsNamesDistinct` | server/server.go:202 | deleting an entry keeps names distinct, and deleting an absent key is a no-op |
| `Relay.Broadcast` | server/server.go:183-190 | appends to the history and notifies everyone but the sender; stated by `Relay.FanOut`, `Invariants.JoinStep` and `Invariants.LeaveStep` |
| `Relay.FanOut` | server/server.go:185-189 | the write loop writes `message + "\n"` exactly once to every registered connection except the sender, and never to the sender |
| `Relay.Replay` | server/server.go:170-172 | the replay writes one line per history entry, in order, each newline-terminated |
| `ChatServer.Admission` | server/server.go:121-156 | a failed read, an all-space name and a taken name are the three rejections; otherwise the trimmed name is accepted, and an accepted name is non-empty, trimmed and held by nobody |
| `ChatServer.Gate` | server/server.go:95-104 | the capacity gate; stated by `Invariants.GateStep` |
| `ChatServer.AbortGreetingAsWritten` | server/server.go:114-118 | the logo-read failure as the code has it; stated by `Invariants.AbortGreetingAsWrittenStep` and `Behaviour.LeakedSlotLocksOut` |
| `ChatServer.SubmitName` | server/server.go:121-163 | the name step; stated by `Invariants.SubmitNameStep` |
| `ChatServer.Join` | server/server.go:168-172 | the join notice and the replay; stated by `Invariants.JoinStep` and `Behaviour.ReplayEndsWithOwnJoin` |
| `ChatServer.Speak` | server/server.go:206-215 | one read-loop line; stated by `Invariants.SpeakStep` |
| `ChatServer.Leave` | server/server.go:177-204 | the read failure, the delete, and the decrement after `read` returns; stated by `Invariants.LeaveStep` |
| `ChatServer.Step` | server/server.go:94-216 | one handler step of either build; stated by `Invariants.StepKeepsConsistent` |
| `Invariants.NewServerValid` | server/server.go:37-55 | a new server satisfies the invariant |
| `Invariants.ConsistentBounds` | server/server.go:24-28 | under the invariant of both builds, registry size is at most the counter, and the counter is at most the cap |
| `Invariants.GateStep` | server/server.go:95-104 | the gate refuses exactly when the counter has reached the limit, and then changes nothing and sends the capacity message; otherwise the counter goes up by exactly one and stays within the limit, the connection gets a handler waiting for its name, and nothing is written; with nothing leaked, it refuses exactly when that many handlers are live; the invariant and the leak are kept |
| `Invariants.AbortGreetingStep` | server/server.go:114-118 | the corrected greeting failure removes the handler and gives back the slot, leaves the registry alone, writes nothing, keeps the invariant and leaks nothing |
| `Invariants.AbortGreetingAsWrittenStep` | server/server.go:114-118 | the greeting failure as written removes the handler but keeps the counter, leaves the registry alone, writes nothing, keeps the invariant of both builds, and leaks exactly one slot |
| `Invariants.SubmitNameStep` | server/server.go:121-163 | a failed read (writing nothing), an empty name or a taken name (writing its refusal) removes the handler, leaves the registry unchanged and decrements the counter; otherwise exactly one entry keyed by the connection with the trimmed name is added, the handler moves on to the join with that record, and nothing is written; the invariant is kept |
| `Invariants.JoinStep` | server/server.go:168-174 | the join notice is appended to the history and sent to every registered connection except the joiner; the joiner is then sent the old history followed by its own join line, and its handler moves on to the read loop |
| `Invariants.SpeakStep` | server/server.go:206-215 | a read line is trimmed, stamped with the timestamp and the sender's name, and queued with the sender; the registry, history, counter, limit and handlers are unchanged and nothing is written |
| `Invariants.LeaveStep` | server/server.go:196-204 | the leave notice is appended and sent to everyone except the leaver, and nothing is written to the leaver; the entry and the handler are removed and the counter decremented; the invariant is kept |
| `Invariants.StepKeepsConsistent` | server/server.go:94-216 | every enabled step of either build keeps the invariant; only the code's greeting failure leaks a slot, exactly one |
| `Invariants.StepPreservesValid` | server/server.go:94-216 | every enabled corrected step keeps the counter equal to the number of live handlers |
| `Invariants.StepFrame` | server/server.go:94-216 | in either build, a step keeps `maxClients`; it keeps the queued chat lines unless it reads one; and every other connection's handler keeps its phase and record |
| `Invariants.StepNeverNotifiesActor` | server/server.go:183-190 | in either build, a notice goes only to registered connections, never to the one that caused it |
| `Invariants.StepHistoryAppendOnly` | server/server.go:184 | in either build, each step leaves the old history as a prefix and adds at most one entry |
| `Invariants.RunKeepsConsistent` | server/server.go:94-216 | every run of either build from a consistent state ends consistent, with the starting history as a prefix; as written it leaks exactly one slot per greeting failure in the run, corrected none; the limit is unchanged |
| `Invariants.RunPreservesValid` | server/server.go:94-216 | every corrected run from a valid state ends valid |
| `Invariants.RunFromNewServer` | server/server.go:37-216 | after any run of either build from `NewServer(m)`, the limit is still `m`, names are distinct, and registry size is at most the counter, which is at most the cap of `m`; corrected, the counter equals the number of live handlers |
| `Invariants.ReachableInvariants` | server/server.go:37-216 | in every reachable state of either build names are distinct and registry size is at most the counter, which is at most the cap; corrected, the counter equals the number of live handlers |
| `Behaviour.ReplayEndsWithOwnJoin` | server/server.go:168-172 | the joiner's replay is the old history in order followed by its own join line |
| `Behaviour.BlankLineForwarded` | server/server.go:206-215 | an all-space line is still queued, as a stamped line with an empty body |
| `Behaviour.SpokenLineParses` | server/server.go:206-215 | the queued line carries the sender, and its timestamp, name and trimmed text can be read back from it |
| `Behaviour.ReplayRepeatsLiveNotice` | server/server.go:157-172 | a notice broadcast between a client's registration and its join reaches that client live and again in its replay |
| `Behaviour.AbortGreetingAsWrittenLeaks` | server/server.go:114-118 | as written, a greeting failure leaves the counter one above the number of live handlers, breaking the invariant |
| `Behaviour.LeakedSlotLocksOut` | server/server.go:96-118 | with a limit of one, the run "connect, greeting fails" of the code leaves no handler live, yet the gate refuses the next connection, whichever it is, and changes nothing |
| `Behaviour.FreedSlotAdmitsNext` | server/server.go:96-118 | the same run corrected ends valid with the counter at zero, and the next connection is admitted |

## Left out

- Sockets: `net.Listen`, `Accept`, reads and writes, and closing connections (server/server.go:57-92). Reads become event parameters: a line, or `None` for a failed read. Writes become the step's `Output`. The name is read through one `bufio.Reader` (server/server.go:121) and the chat lines through a second one (server/server.go:194). Bytes that arrived with the name, after its newline, stay in the first reader and are lost. In the model such a line is simply an event that never happens.
- The welcome line, banner file and name prompt (server/server.go:112-120). They are I/O. Only the outcome "the logo could not be read" is kept, as the `LogoFailed` event. Each build handles it in its own way.
- `LogMessage` and the log file (server/server.go:38-41, 74-80, 165-166, 198-199). This is an append-only output sink.
- `NewServer`'s failure to open the log file (server/server.go:39-42). It is file-system I/O.
- `Start`, `quitch` and closing `Msgs` (server/server.go:57-72). These are process wiring.
- Goroutines and `sync.Mutex`. Each locked section is part of one atomic step. `Broadcast` reads `clients` and appends to `oldMsgs` without the lock (server/server.go:183-190). The sequential model treats it as atomic, so it does not model that race. `Join` likewise makes the join `Broadcast` (server/server.go:168) and the replay loop (server/server.go:170-172) one step, though neither holds the lock; in the code another handler's broadcast can land between them, and then the replay does not end with the joiner's own line. `Behaviour.ReplayEndsWithOwnJoin` holds only under this atomicity. `Leave` merges three sections into one step: the unlocked leave `Broadcast` (server/server.go:200), the locked `delete` (server/server.go:201-203) and the locked decrement after `read` returns (server/server.go:177-179). In the code, another handler's step can run between them. A join broadcast can still reach the leaver after its leave notice has gone out, and the gate still counts the leaver's slot after its entry is deleted. The model does not exercise these interleavings.
- The `Msgs` channel's blocking. The channel is unbuffered, and nothing that reads it is part of this model. A queued line is appended to `outbox`, and a sender blocked forever on the send is not modelled.
- `time.Now().Format` (server/server.go:208). The timestamp is an opaque string parameter.
- `conn.RemoteAddr().String()` (server/server.go:159). The peer address is an opaque string parameter.
- Go map iteration order in `Broadcast` and in the name scan. `Relay.FanOut` and `Registry.SearchName` visit entries in an arbitrary order, and `Relay.Broadcast` gives the recipients as a set.
- Write errors, which the code ignores. Every write is taken to succeed.
- A partial last line before end of stream. `ReadString` returns it with an error, and the code discards it. The model's read-error events carry no data.
- Invalid UTF-8. Strings are sequences of code points. `Text.IsSpace` is Go's `unicode.IsSpace` over code points.
- The prototype `main.go`. It has no registry, no capacity check and no broadcast. Its trim and format are the same as server/server.go:206-210.

## Findings

| source | as written | input that shows it | evidently intended | confidence | as-written member | corrected member |
|---|---|---|---|---|---|---|
| server/server.go:114-118 | when the logo file cannot be read, the handler returns without decrementing `activeClients` | `maxClients` = 1, logo file unreadable: the first connection takes the only slot and leaks it, so every later connection is refused while no client is connected | give the slot back, as the failed-name-read path at server/server.go:122-131 does | not executed | `Behaviour.LeakedSlotLocksOut` (on `ChatServer.AbortGreetingAsWritten`, the `AsWritten` build of `ChatServer.Step`) | `Invariants.AbortGreetingStep` and `Invariants.StepPreservesValid` (on `ChatServer.AbortGreeting`, the `Corrected` build) |

=== FILE: behaviour.dfy ===
/**
 * Observable consequences of how the handler orders its steps: what a
 * client sees on joining, what happens to blank lines, and the counter slot
 * lost when the greeting cannot be sent.
 */
module Behaviour {
  import opened Wrappers
  import opened Text
  import opened Messages
  import opened Registry
  import opened Relay
  import opened ChatServer
  import opened Invariants

  /**
   * The join notice is appended before the replay loop runs, so the replay a
   * joiner receives is never empty and always ends with its own join line.
   */
  lemma ReplayEndsWithOwnJoin(s: Server, c: ConnId)
    requires Consistent(s) && c in s.handlers && s.handlers[c].Joining?
    ensures var replay := Join(s, c).out.direct;
      && |replay| == |s.history| + 1
      && replay[|s.history|] == JoinNotice(s.clients[c].name) + "\n"
      && forall k :: 0 <= k < |s.history| ==> replay[k] == s.history[k] + "\n"
  {
    JoinStep(s, c);
  }

  /**
   * Nothing filters blank lines after the trim: a line of nothing but spaces
   * is queued as a stamped line with an empty body.
   */
  lemma BlankLineForwarded(s: Server, c: ConnId, raw: string, timestamp: string)
    requires c in s.handlers && s.handlers[c].Chatting?
    requires AllSpace(raw)
    ensures var q := Speak(s, c, raw, timestamp).next.outbox;
      && |q| == |s.outbox| + 1
      && q[|s.outbox|] == ClientMessage("[" + timestamp + "][" + s.handlers[c].info.name + "]: ", c)
  {
    TrimSpaceEmptyIff(raw);
    var name := s.handlers[c].info.name;
    assert ChatLine(timestamp, name, TrimSpace(raw)) == "[" + timestamp + "][" + name + "]: ";
  }

  /**
   * A queued chat line names its sender and carries the timestamp and the
   * trimmed text, all three recoverable from the line itself when neither the
   * timestamp nor the name holds a ']'.
   */
  lemma SpokenLineParses(s: Server, c: ConnId, raw: string, timestamp: string)
    requires c in s.handlers && s.handlers[c].Chatting?
    requires ']' !in timestamp && ']' !in s.handlers[c].info.name
    ensures var q := Speak(s, c, raw, timestamp).next.outbox;
      && |q| == |s.outbox| + 1
      && q[|s.outbox|].sender == c
      && ParseChatLine(q[|s.outbox|].message)
         == Some(ChatFields(timestamp, s.handlers[c].info.name, TrimSpace(raw)))
  {
    ParseChatLineInverts(timestamp, s.handlers[c].info.name, TrimSpace(raw));
  }

  /**
   * A connection is registered before its join notice and replay, so a notice
   * broadcast in between (here another client leaving) is written to the
   * joiner live and then written to it again as part of its replay.
   */
  lemma ReplayRepeatsLiveNotice(s: Server, c: ConnId, d: ConnId)
    requires Consistent(s)
    requires c in s.handlers && s.handlers[c].Joining?
    requires d in s.handlers && s.handlers[d].Chatting?
    ensures var l := Leave(s, d);
      && l.out.notice.Some?
      && c in l.out.notice.value.recipients
      && c in l.next.handlers && l.next.handlers[c].Joining?
      && l.out.notice.value.line in Join(l.next, c).out.direct
  {
    var l := Leave(s, d);
    assert c in s.clients;
    var j := Join(l.next, c);
    var k := |s.history|;
    assert l.next.history[k] == LeaveNotice(s.handlers[d].info.name);
    assert j.out.direct[k] == l.out.notice.value.line;
  }

  // ------------------------------------------------ the greeting-failure leak

  /**
   * As written, a handler that cannot read the logo ends without giving back
   * its slot: the counter is left one above the number of live handlers. This
   * is `AbortGreetingAsWrittenStep` taken from a valid state.
   */
  lemma AbortGreetingAsWrittenLeaks(s: Server, c: ConnId)
    requires Valid(s) && c in s.handlers && s.handlers[c].AwaitingName?
    ensures var t := AbortGreetingAsWritten(s, c).next;
      t.activeClients == |t.handlers| + 1 && !Valid(t)
  {
    MapRemoveCard(s.handlers, c);
  }

  /**
   * With a limit of one, a single failed greeting locks the server as
   * written: after it no handler is live, yet the next connection, whichever
   * it is, is refused and changes nothing.
   */
  lemma LeakedSlotLocksOut(c: ConnId, c': ConnId)
    ensures var r := Run(AsWritten, NewServer(1), [Connected(c), LogoFailed(c)]);
      && r.Some?
      && r.value.handlers == map[] && r.value.clients == map[]
      && Enabled(r.value, Connected(c'))
      && Step(AsWritten, r.value, Connected(c')).next == r.value
      && Step(AsWritten, r.value, Connected(c')).out.direct == [CapacityRefusal]
  {
    var g := Gate(NewServer(1), c).next;
    assert g.handlers == map[c := AwaitingName];
    var t := AbortGreetingAsWritten(g, c).next;
    assert t.handlers == map[];
    assert Run(AsWritten, t, []) == Some(t);
    assert Run(AsWritten, g, [LogoFailed(c)]) == Some(t);
  }

  /** Corrected, the failed greeting gives its slot back and the next connection is admitted. */
  lemma FreedSlotAdmitsNext(c: ConnId, c': ConnId)
    ensures var r := Run(Corrected, NewServer(1), [Connected(c), LogoFailed(c)]);
      && r.Some?
      && Valid(r.value)
      && r.value.handlers == map[] && r.value.activeClients == 0
      && Enabled(r.value, Connected(c'))
      && Step(Corrected, r.value, Connected(c')).next.handlers == map[c' := AwaitingName]
      && Step(Corrected, r.value, Connected(c')).out == Silent
  {
    var g := Gate(NewServer(1), c).next;
    assert g.handlers == map[c := AwaitingName];
    var t := AbortGreeting(g, c).next;
    assert t.handlers == map[];
    assert Run(Corrected, t, []) == Some(t);
    assert Run(Corrected, g, [LogoFailed(c)]) == Some(t);
  }
}

=== FILE: invariants.dfy ===
/**
 * The step invariants of the server. Every transition, for the code as
 * written and for the corrected greeting, keeps the counter within the cap
 * and at or above the number of live handlers, keeps the registry within the
 * counter and its names distinct, never notifies the acting connection, and
 * only ever appends to the history. Only the code's greeting failure leaks a
 * slot; every other step leaves the leak where it was, so the corrected
 * build keeps the counter equal to the number of live handlers.
 */
module Invariants {
  import opened Wrappers
  import opened Text
  import opened Messages
  import opened Registry
  import opened Relay
  import opened ChatServer

  lemma NewServerValid(maxClients: int)
    ensures Valid(NewServer(maxClients))
  {
  }

  lemma MapRemoveCard<K, V>(m: map<K, V>, k: K)
    requires k in m
    ensures |m - {k}| == |m| - 1
  {
    assert (m - {k}).Keys == m.Keys - {k};
  }

  /** The registry never holds more entries than the counter, and the counter never exceeds the cap. */
  lemma ConsistentBounds(s: Server)
    requires Consistent(s)
    ensures |s.clients| <= s.activeClients <= Capacity(s.maxClients)
  {
    assert s.clients.Keys <= s.handlers.Keys;
    assert s.handlers.Keys == s.clients.Keys + (s.handlers.Keys - s.clients.Keys);
  }

  /**
   * The gate refuses exactly when the counter has reached the limit, and then
   * changes nothing; otherwise it takes exactly one slot. When no slot has
   * leaked, it refuses only when that many handlers are live.
   */
  lemma GateStep(s: Server, c: ConnId)
    requires Consistent(s) && c !in s.handlers
    ensures Consistent(Gate(s, c).next) && Leaked(Gate(s, c).next) == Leaked(s)
    ensures Gate(s, c).next == s <==> s.activeClients >= s.maxClients
    ensures Valid(s) ==> (Gate(s, c).next == s <==> |s.handlers| >= s.maxClients)
    ensures Gate(s, c).next == s ==> Gate(s, c).out.direct == [CapacityRefusal]
    ensures Gate(s, c).next != s ==>
      && Gate(s, c).next.activeClients == s.activeClients + 1 <= s.maxClients
      && Gate(s, c).next.clients == s.clients
      && Gate(s, c).next.history == s.history
      && Gate(s, c).next.handlers == s.handlers[c := AwaitingName]
      && Gate(s, c).out == Silent
  {
    if s.activeClients < s.maxClients {
      GateAdmitKeepsConsistent(s, c);
      assert c in Gate(s, c).next.handlers;
    }
  }

  lemma GateAdmitKeepsConsistent(s: Server, c: ConnId)
    requires Consistent(s) && c !in s.handlers && s.activeClients < s.maxClients
    ensures Consistent(Gate(s, c).next) && Leaked(Gate(s, c).next) == Leaked(s)
  {
    var t := Gate(s, c).next;
    assert t.clients == s.clients && t.handlers == s.handlers[c := AwaitingName];
    assert |t.handlers| == |s.handlers| + 1;
    assert CounterBounded(t);
    assert RegistryMatchesHandlers(t) by {
      forall d
        ensures d in t.clients <==> d in t.handlers && !t.handlers[d].AwaitingName?
      {
        if d == c {} else {}
      }
    }
    assert NamesValid(t.clients);
  }

  /** Corrected, a handler ending at the greeting gives back its slot and leaves the registry alone. */
  lemma AbortGreetingStep(s: Server, c: ConnId)
    requires Consistent(s) && c in s.handlers && s.handlers[c].AwaitingName?
    ensures Consistent(AbortGreeting(s, c).next)
    ensures Leaked(AbortGreeting(s, c).next) == Leaked(s)
    ensures AbortGreeting(s, c).next.clients == s.clients
    ensures AbortGreeting(s, c).next.activeClients == s.activeClients - 1
    ensures AbortGreeting(s, c).next.handlers == s.handlers - {c}
    ensures AbortGreeting(s, c).out == Silent
  {
    MapRemoveCard(s.handlers, c);
  }

  /**
   * As written, the handler ends but its slot stays counted: the registry and
   * the counter are unchanged, and one more slot has leaked.
   */
  lemma AbortGreetingAsWrittenStep(s: Server, c: ConnId)
    requires Consistent(s) && c in s.handlers && s.handlers[c].AwaitingName?
    ensures Consistent(AbortGreetingAsWritten(s, c).next)
    ensures Leaked(AbortGreetingAsWritten(s, c).next) == Leaked(s) + 1
    ensures AbortGreetingAsWritten(s, c).next.clients == s.clients
    ensures AbortGreetingAsWritten(s, c).next.activeClients == s.activeClients
    ensures AbortGreetingAsWritten(s, c).next.handlers == s.handlers - {c}
    ensures AbortGreetingAsWritten(s, c).out == Silent
  {
    MapRemoveCard(s.handlers, c);
  }

  /**
   * The name step. A failed read, an empty trimmed name or a name some
   * registered client already has leaves the registry unchanged and undoes the
   * gate's increment; otherwise exactly one entry is added, keyed by the
   * connection and holding the trimmed name.
   */
  lemma SubmitNameStep(s: Server, c: ConnId, line: Option<string>, from: string)
    requires Consistent(s) && c in s.handlers && s.handlers[c].AwaitingName?
    ensures var o := SubmitName(s, c, line, from);
      && Consistent(o.next)
      && Leaked(o.next) == Leaked(s)
      && o.next.history == s.history
      && o.out.notice == None
    ensures var o := SubmitName(s, c, line, from);
      line.None? ==>
        && o.next.clients == s.clients && o.next.activeClients == s.activeClients - 1
        && o.next.handlers == s.handlers - {c}
        && o.out == Silent
    ensures var o := SubmitName(s, c, line, from);
      line.Some? && TrimSpace(line.value) == [] ==>
        && o.next.clients == s.clients && o.next.activeClients == s.activeClients - 1
        && o.next.handlers == s.handlers - {c}
        && o.out.direct == [EmptyNameRefusal]
    ensures var o := SubmitName(s, c, line, from);
      line.Some? && NameTaken(s.clients, TrimSpace(line.value)) ==>
        && o.next.clients == s.clients && o.next.activeClients == s.activeClients - 1
        && o.next.handlers == s.handlers - {c}
        && o.out.direct == [NameTakenRefusal]
    ensures var o := SubmitName(s, c, line, from);
      line.Some? && TrimSpace(line.value) != [] && !NameTaken(s.clients, TrimSpace(line.value)) ==>
        && c !in s.clients
        && o.next.clients == s.clients[c := Client(TrimSpace(line.value), from)]
        && |o.next.clients| == |s.clients| + 1
        && o.next.activeClients == s.activeClients
        && o.next.handlers == s.handlers[c := Joining(Client(TrimSpace(line.value), from))]
        && o.out == Silent
  {
    if line.Some? {
      TrimSpaceEmptyIff(line.value);
    }
    if Admission(s.clients, line).Accepted? {
      SubmitNameAccepts(s, c, line.value, from);
    } else {
      SubmitNameRejects(s, c, line, from);
    }
  }

  lemma SubmitNameRejects(s: Server, c: ConnId, line: Option<string>, from: string)
    requires Consistent(s) && c in s.handlers && s.handlers[c].AwaitingName?
    requires !Admission(s.clients, line).Accepted?
    ensures SubmitName(s, c, line, from).next == Release(s, c)
    ensures Consistent(Release(s, c)) && Leaked(Release(s, c)) == Leaked(s)
  {
    MapRemoveCard(s.handlers, c);
    var t := Release(s, c);
    assert t.clients == s.clients;
    assert CounterBounded(t);
    assert RegistryMatchesHandlers(t);
  }

  lemma SubmitNameAccepts(s: Server, c: ConnId, raw: string, from: string)
    requires Consistent(s) && c in s.handlers && s.handlers[c].AwaitingName?
    requires Admission(s.clients, Some(raw)).Accepted?
    ensures var t := SubmitName(s, c, Some(raw), from).next;
      && Consistent(t)
      && Leaked(t) == Leaked(s)
      && c !in s.clients
      && t.clients == s.clients[c := Client(TrimSpace(raw), from)]
      && t.activeClients == s.activeClients
      && t.history == s.history
      && t.handlers == s.handlers[c := Joining(Client(TrimSpace(raw), from))]
  {
    var info := Client(TrimSpace(raw), from);
    assert Admission(s.clients, Some(raw)) == Accepted(info.name);
    assert SubmitName(s, c, Some(raw), from).next
        == s.(clients := s.clients[c := info], handlers := s.handlers[c := Joining(info)]);
    RegisterKeepsConsistent(s, c, info);
  }

  /** Registering a waiting handler under an admissible, free name keeps the invariant. */
  lemma RegisterKeepsConsistent(s: Server, c: ConnId, info: Client)
    requires Consistent(s) && c in s.handlers && s.handlers[c].AwaitingName?
    requires AdmissibleName(info.name) && !NameTaken(s.clients, info.name)
    ensures var t := s.(clients := s.clients[c := info], handlers := s.handlers[c := Joining(info)]);
      Consistent(t) && Leaked(t) == Leaked(s)
  {
    var t := s.(clients := s.clients[c := info], handlers := s.handlers[c := Joining(info)]);
    assert t.handlers.Keys == s.handlers.Keys;
    assert CounterBounded(t);
    assert RegistryMatchesHandlers(t) by {
      forall d
        ensures d in t.clients <==> d in t.handlers && !t.handlers[d].AwaitingName?
      {
        if d == c {} else {}
      }
    }
    assert NamesValid(t.clients) by {
      RegisterKeepsNamesDistinct(s.clients, c, info);
    }
  }

  /**
   * Join: the notice "<name> has joined our chat..." is appended to the
   * history and sent to every registered connection but the joiner, and the
   * joiner is then sent the old history followed by its own join line.
   */
  lemma JoinStep(s: Server, c: ConnId)
    requires Consistent(s) && c in s.handlers && s.handlers[c].Joining?
    ensures var o := Join(s, c); var name := s.clients[c].name;
      && Consistent(o.next)
      && Leaked(o.next) == Leaked(s)
      && o.next.clients == s.clients
      && o.next.activeClients == s.activeClients
      && o.next.history == s.history + [JoinNotice(name)]
      && o.out.notice == Some(Notice(JoinNotice(name) + "\n", s.clients.Keys - {c}))
      && o.out.direct == Replay(s.history) + [JoinNotice(name) + "\n"]
      && o.next.handlers == s.handlers[c := Chatting(s.handlers[c].info)]
  {
    var o := Join(s, c);
    assert c in s.clients;
    assert o.next.handlers.Keys == s.handlers.Keys;
    assert Replay(o.next.history)[..|s.history|] == Replay(s.history);
  }

  /** A chat line is trimmed, stamped with the sender's name and queued; nothing else changes. */
  lemma SpeakStep(s: Server, c: ConnId, raw: string, timestamp: string)
    requires Consistent(s) && c in s.handlers && s.handlers[c].Chatting?
    ensures var o := Speak(s, c, raw, timestamp);
      && Consistent(o.next)
      && Leaked(o.next) == Leaked(s)
      && o.next.outbox == s.outbox + [ClientMessage(ChatLine(timestamp, s.clients[c].name, TrimSpace(raw)), c)]
      && o.next.clients == s.clients
      && o.next.history == s.history
      && o.next.activeClients == s.activeClients
      && o.next.handlers == s.handlers
      && o.next.maxClients == s.maxClients
      && o.out == Silent
  {
  }

  /**
   * Leave: "<name> has left our chat..." is appended and sent to everyone but
   * the leaver, its entry is deleted and its slot released.
   */
  lemma LeaveStep(s: Server, c: ConnId)
    requires Consistent(s) && c in s.handlers && s.handlers[c].Chatting?
    ensures var o := Leave(s, c); var name := s.clients[c].name;
      && Consistent(o.next)
      && Leaked(o.next) == Leaked(s)
      && o.next.clients == s.clients - {c}
      && |o.next.clients| == |s.clients| - 1
      && o.next.activeClients == s.activeClients - 1
      && o.next.history == s.history + [LeaveNotice(name)]
      && o.out.notice == Some(Notice(LeaveNotice(name) + "\n", s.clients.Keys - {c}))
      && o.out.direct == []
      && o.next.handlers == s.handlers - {c}
  {
    assert c in s.clients;
    MapRemoveCard(s.handlers, c);
    MapRemoveCard(s.clients, c);
    UnregisterKeepsNamesDistinct(s.clients, c);
  }

  /** One more leaked slot when the code's greeting failure runs, none otherwise. */
  function LeakOf(b: Build, e: Event): nat {
    if b == AsWritten && e.LogoFailed? then 1 else 0
  }

  /** Every enabled step of either build keeps the server consistent, and leaks only at the code's greeting failure. */
  lemma StepKeepsConsistent(b: Build, s: Server, e: Event)
    requires Consistent(s) && Enabled(s, e)
    ensures Consistent(Step(b, s, e).next)
    ensures Leaked(Step(b, s, e).next) == Leaked(s) + LeakOf(b, e)
  {
    match e
    case Connected(c) =>
      assert Step(b, s, e) == Gate(s, c);
      GateStep(s, c);
    case LogoFailed(c) =>
      if b == AsWritten { AbortGreetingAsWrittenStep(s, c); } else { AbortGreetingStep(s, c); }
    case NameReceived(c, line, from) =>
      assert Step(b, s, e) == SubmitName(s, c, line, from);
      SubmitNameStep(s, c, line, from);
    case Announce(c) =>
      assert Step(b, s, e) == Join(s, c);
      JoinStep(s, c);
    case LineReceived(c, raw, timestamp) =>
      assert Step(b, s, e) == Speak(s, c, raw, timestamp);
      SpeakStep(s, c, raw, timestamp);
    case ReadError(c) =>
      assert Step(b, s, e) == Leave(s, c);
      LeaveStep(s, c);
  }

  /**
   * What a step leaves alone: the configured limit, the queued chat lines
   * unless the step reads one, and the handlers of every other connection.
   */
  lemma StepFrame(b: Build, s: Server, e: Event)
    requires Enabled(s, e)
    ensures var t := Step(b, s, e).next;
      && t.maxClients == s.maxClients
      && (!e.LineReceived? ==> t.outbox == s.outbox)
      && (forall d :: d != e.conn && d in s.handlers ==> d in t.handlers && t.handlers[d] == s.handlers[d])
      && (forall d :: d != e.conn && d in t.handlers ==> d in s.handlers)
  {
  }

  /** With the corrected greeting, every enabled step keeps the counter exact. */
  lemma StepPreservesValid(s: Server, e: Event)
    requires Valid(s) && Enabled(s, e)
    ensures Valid(Step(Corrected, s, e).next)
  {
    StepKeepsConsistent(Corrected, s, e);
  }

  /** A notice goes only to registered connections, and never to the connection that caused it. */
  lemma StepNeverNotifiesActor(b: Build, s: Server, e: Event)
    requires Enabled(s, e)
    ensures var o := Step(b, s, e);
      o.out.notice.Some? ==> e.conn !in o.out.notice.value.recipients && o.out.notice.value.recipients <= s.clients.Keys
  {
  }

  /** The history only grows, by at most one entry, at its end. */
  lemma StepHistoryAppendOnly(b: Build, s: Server, e: Event)
    requires Enabled(s, e)
    ensures var h := Step(b, s, e).next.history;
      s.history <= h && |h| <= |s.history| + 1
  {
    match e
    case Connected(c) =>
    case LogoFailed(c) =>
    case NameReceived(c, line, from) =>
    case Announce(c) =>
    case LineReceived(c, raw, timestamp) =>
    case ReadError(c) =>
  }

  /**
   * Every run of either build from a consistent state ends consistent, with
   * the starting history as a prefix. As written, each greeting failure of the
   * run leaks exactly one slot; corrected, none leaks.
   */
  lemma {:induction false} RunKeepsConsistent(b: Build, s: Server, events: seq<Event>)
    requires Consistent(s)
    ensures Run(b, s, events).Some? ==> Consistent(Run(b, s, events).value)
    ensures Run(b, s, events).Some? ==> s.history <= Run(b, s, events).value.history
    ensures Run(b, s, events).Some? ==>
      Leaked(Run(b, s, events).value) == Leaked(s) + (if b == AsWritten then GreetingFailures(events) else 0)
    ensures Run(b, s, events).Some? ==> Run(b, s, events).value.maxClients == s.maxClients
    decreases |events|
  {
    if events != [] && Enabled(s, events[0]) {
      StepKeepsConsistent(b, s, events[0]);
      StepHistoryAppendOnly(b, s, events[0]);
      StepFrame(b, s, events[0]);
      RunKeepsConsistent(b, Step(b, s, events[0]).next, events[1..]);
    }
  }

  /** Every corrected run from a valid state ends valid. */
  lemma RunPreservesValid(s: Server, events: seq<Event>)
    requires Valid(s)
    ensures Run(Corrected, s, events).Some? ==> Valid(Run(Corrected, s, events).value)
  {
    RunKeepsConsistent(Corrected, s, events);
  }

  /**
   * What holds after every run from a fresh server, as written or corrected:
   * the limit is the one the server was made with, names are distinct, and
   * the registry size is at most the counter, which is at most that limit.
   * Corrected, the counter equals the number of live handlers.
   */
  lemma RunFromNewServer(b: Build, maxClients: int, events: seq<Event>)
    ensures var r := Run(b, NewServer(maxClients), events);
      r.Some? ==>
        && Consistent(r.value)
        && r.value.maxClients == maxClients
        && NamesDistinct(r.value.clients)
        && |r.value.clients| <= r.value.activeClients <= Capacity(maxClients)
        && (b == Corrected ==> r.value.activeClients == |r.value.handlers|)
  {
    NewServerValid(maxClients);
    RunKeepsConsistent(b, NewServer(maxClients), events);
    var r := Run(b, NewServer(maxClients), events);
    if r.Some? {
      ConsistentBounds(r.value);
    }
  }

  /** The same bounds for every reachable state, against its own limit. */
  lemma ReachableInvariants(b: Build, s: Server)
    requires Reachable(b, s)
    ensures Consistent(s)
    ensures NamesDistinct(s.clients)
    ensures |s.clients| <= s.activeClients <= Capacity(s.maxClients)
    ensures b == Corrected ==> s.activeClients == |s.handlers|
  {
    var maxClients, events :| Run(b, NewServer(maxClients), events) == Some(s);
    RunFromNewServer(b, maxClients, events);
  }
}

=== FILE: messages.dfy ===
/**
 * The texts the server writes: refusals, presence notices, and the stamped
 * chat line "[timestamp][name]: body" built for every line a client sends.
 */
module Messages {
  import opened Wrappers

  /** Written to a connection refused at the gate. */
  const CapacityRefusal: string := "Maximum connection limit reached. Please try again later...\n"

  /** Written when the trimmed name is empty. */
  const EmptyNameRefusal: string := "Sorry! Empty name can't be accepted.\nDisconnected...\n"

  /** Written when another registered client already has the name. */
  const NameTakenRefusal: string := "Sorry! The name you are trying to enter is already in use.\nDisconnected...\n"

  function JoinNotice(name: string): string {
    name + " has joined our chat..."
  }

  function LeaveNotice(name: string): string {
    name + " has left our chat..."
  }

  /** The three parts of a stamped chat line. */
  datatype ChatFields = ChatFields(timestamp: string, name: string, body: string)

  /** The format "[%s][%s]: %s"; the timestamp is whatever the clock rendered. */
  function ChatLine(timestamp: string, name: string, body: string): string {
    "[" + timestamp + "][" + name + "]: " + body
  }

  /** The first position at or after `from` holding `ch`, or |s| if there is none. */
  function IndexOf(s: string, ch: char, from: nat): (k: nat)
    requires from <= |s|
    ensures from <= k <= |s|
    ensures k < |s| ==> s[k] == ch
    ensures forall x :: from <= x < k ==> s[x] != ch
    decreases |s| - from
  {
    if from == |s| then |s|
    else if s[from] == ch then from
    else IndexOf(s, ch, from + 1)
  }

  /**
   * Reads a stamped chat line back into its parts, taking the first ']' as
   * the end of the timestamp and the next one as the end of the name.
   */
  function ParseChatLine(line: string): (f: Option<ChatFields>)
  {
    if |line| == 0 || line[0] != '[' then None
    else
      var k1 := IndexOf(line, ']', 1);
      if k1 + 1 >= |line| || line[k1 + 1] != '[' then None
      else
        var k2 := IndexOf(line, ']', k1 + 2);
        if k2 + 3 > |line| || line[k2 + 1..k2 + 3] != ": " then None
        else Some(ChatFields(line[1..k1], line[k1 + 2..k2], line[k2 + 3..]))
  }

  lemma {:induction false} IndexOfFinds(s: string, ch: char, from: nat, k: nat)
    requires from <= k < |s| && s[k] == ch
    requires forall x :: from <= x < k ==> s[x] != ch
    ensures IndexOf(s, ch, from) == k
    decreases k - from
  {
    if from < k {
      IndexOfFinds(s, ch, from + 1, k);
    }
  }

  /**
   * A chat line whose timestamp and name hold no ']' parses back into exactly
   * the parts it was built from. The clock's layout never holds one; a name may.
   */
  lemma ParseChatLineInverts(timestamp: string, name: string, body: string)
    requires ']' !in timestamp && ']' !in name
    ensures ParseChatLine(ChatLine(timestamp, name, body)) == Some(ChatFields(timestamp, name, body))
  {
    var line := ChatLine(timestamp, name, body);
    var k1 := 1 + |timestamp|;
    var k2 := k1 + 2 + |name|;
    assert line == "[" + timestamp + "][" + name + "]: " + body;
    assert line[1..k1] == timestamp;
    assert line[k1 + 2..k2] == name;
    assert line[k2 + 3..] == body;
    assert line[k2 + 1..k2 + 3] == ": ";
    forall x | 1 <= x < k1 ensures line[x] != ']' {
      assert line[x] == timestamp[x - 1];
    }
    IndexOfFinds(line, ']', 1, k1);
    forall x | k1 + 2 <= x < k2 ensures line[x] != ']' {
      assert line[x] == name[x - k1 - 2];
    }
    IndexOfFinds(line, ']', k1 + 2, k2);
  }

  /**
   * Why the ']' condition is needed: with a ']' in the name, two different
   * timestamp and name pairs give the same line, so no parser can recover both.
   */
  lemma ChatLineAmbiguous()
    ensures ChatLine("a", "b][c", "x") == ChatLine("a][b", "c", "x")
    ensures ChatFields("a", "b][c", "x") != ChatFields("a][b", "c", "x")
  {
  }

  /** Conversely, whatever parses is a chat line built from the parts it yields. */
  lemma ParseChatLineSound(line: string)
    requires ParseChatLine(line).Some?
    ensures var f := ParseChatLine(line).value;
      && line == ChatLine(f.timestamp, f.name, f.body)
      && ']' !in f.timestamp && ']' !in f.name
  {
    ParsedLineRebuilds(line);
    ParsedFieldsUnbracketed(line);
  }

  lemma ParsedLineRebuilds(line: string)
    requires ParseChatLine(line).Some?
    ensures var f := ParseChatLine(line).value; line == ChatLine(f.timestamp, f.name, f.body)
  {
    var f := ParseChatLine(line).value;
    var k1 := IndexOf(line, ']', 1);
    var k2 := IndexOf(line, ']', k1 + 2);
    assert line[..k1] == "[" + f.timestamp;
    assert line[..k1 + 2] == line[..k1] + "][";
    assert line[..k2] == line[..k1 + 2] + f.name;
    assert line[..k2 + 3] == line[..k2] + "]: ";
    assert line == line[..k2 + 3] + f.body;
  }

  lemma ParsedFieldsUnbracketed(line: string)
    requires ParseChatLine(line).Some?
    ensures var f := ParseChatLine(line).value; ']' !in f.timestamp && ']' !in f.name
  {
    var f := ParseChatLine(line).value;
    var k1 := IndexOf(line, ']', 1);
    forall x | 0 <= x < |f.timestamp| ensures f.timestamp[x] != ']' {
      assert f.timestamp[x] == line[x + 1];
    }
    forall x | 0 <= x < |f.name| ensures f.name[x] != ']' {
      assert f.name[x] == line[x + k1 + 2];
    }
  }
}

=== FILE: registry.dfy ===
/**
 * The client registry: the map from a connection to the client record the
 * server keeps for it once its name has been accepted.
 */
module Registry {

  /** A connection's identity; the server keys its map by the connection itself. */
  type ConnId = nat

  /** A registered client: its display name and the peer address it connected from. */
  datatype Client = Client(name: string, from: string)

  type Clients = map<ConnId, Client>

  /** No two registered connections share a display name. */
  ghost predicate NamesDistinct(reg: Clients) {
    forall a, b :: a in reg && b in reg && a != b ==> reg[a].name != reg[b].name
  }

  /** Some registered client already has exactly this name (case-sensitive). */
  predicate NameTaken(reg: Clients, name: string) {
    exists c :: c in reg && reg[c].name == name
  }

  /**
   * The admission scan: walk the registered clients and stop at the first one
   * whose name is equal to the requested one.
   */
  method SearchName(reg: Clients, name: string) returns (taken: bool)
    ensures taken <==> NameTaken(reg, name)
  {
    var todo := reg.Keys;
    taken := false;
    while todo != {} && !taken
      invariant todo <= reg.Keys
      invariant taken ==> NameTaken(reg, name)
      invariant !taken ==> forall c :: c in reg && c !in todo ==> reg[c].name != name
      decreases todo
    {
      var c :| c in todo;
      if reg[c].name == name {
        taken := true;
      }
      todo := todo - {c};
    }
  }

  /** Registering a name nobody holds keeps the names distinct; every other entry is untouched. */
  lemma {:induction false} RegisterKeepsNamesDistinct(reg: Clients, c: ConnId, client: Client)
    requires NamesDistinct(reg)
    requires !NameTaken(reg, client.name)
    ensures NamesDistinct(reg[c := client])
    ensures forall d :: d != c ==> (d in reg[c := client] <==> d in reg)
    ensures forall d :: d != c && d in reg ==> reg[c := client][d] == reg[d]
  {
    var r := reg[c := client];
    forall a, b | a in r && b in r && a != b
      ensures r[a].name != r[b].name
    {
      if a == c {
        assert b in reg;
      } else if b == c {
        assert a in reg;
      }
    }
  }

  /** Removing an entry keeps the names distinct; removing an absent one changes nothing. */
  lemma UnregisterKeepsNamesDistinct(reg: Clients, c: ConnId)
    requires NamesDistinct(reg)
    ensures NamesDistinct(reg - {c})
    ensures c !in reg ==> reg - {c} == reg
  {
  }
}

=== FILE: relay.dfy ===
/**
 * Broadcast and replay: a message is appended to the history and written,
 * newline-terminated, to every registered connection except its sender; a
 * newly joined client is sent the whole history in order.
 */
module Relay {
  import opened Registry

  /** One write of `text` to the connection `to`. */
  datatype Write = Write(to: ConnId, text: string)

  /** A line and the connections it is written to. */
  datatype Notice = Notice(line: string, recipients: set<ConnId>)

  /** What a broadcast leaves behind: the grown history and the notice it sent. */
  datatype Delivery = Delivery(history: seq<string>, notice: Notice)

  /** Every registered connection except the sender. */
  function Recipients(reg: Clients, sender: ConnId): set<ConnId> {
    reg.Keys - {sender}
  }

  /** Broadcast: append to the history, then notify everyone but the sender. */
  function Broadcast(reg: Clients, history: seq<string>, message: string, sender: ConnId): Delivery {
    Delivery(history + [message], Notice(message + "\n", Recipients(reg, sender)))
  }

  function Targets(writes: seq<Write>): set<ConnId> {
    set w | w in writes :: w.to
  }

  /**
   * The write loop of Broadcast: range over the registered connections in
   * some order and write the line to each one that is not the sender.
   */
  method FanOut(reg: Clients, message: string, sender: ConnId) returns (writes: seq<Write>)
    ensures Targets(writes) == Broadcast(reg, [], message, sender).notice.recipients
    ensures forall k :: 0 <= k < |writes| ==> writes[k].to != sender
    ensures forall k :: 0 <= k < |writes| ==> writes[k].text == message + "\n"
    ensures forall k, l :: 0 <= k < l < |writes| ==> writes[k].to != writes[l].to
  {
    var todo := reg.Keys;
    writes := [];
    while todo != {}
      invariant todo <= reg.Keys
      invariant Targets(writes) == Recipients(reg, sender) - todo
      invariant forall k :: 0 <= k < |writes| ==> writes[k].to != sender && writes[k].to !in todo
      invariant forall k :: 0 <= k < |writes| ==> writes[k].text == message + "\n"
      invariant forall k, l :: 0 <= k < l < |writes| ==> writes[k].to != writes[l].to
      decreases todo
    {
      var c :| c in todo;
      if c != sender {
        assert Targets(writes + [Write(c, message + "\n")]) == Targets(writes) + {c};
        writes := writes + [Write(c, message + "\n")];
      }
      todo := todo - {c};
    }
  }

  /** The replay loop: each history entry, in order, newline-terminated. */
  function Replay(history: seq<string>): (lines: seq<string>)
    ensures |lines| == |history|
    ensures forall k :: 0 <= k < |history| ==> lines[k] == history[k] + "\n"
  {
    if history == [] then [] else [history[0] + "\n"] + Replay(history[1..])
  }
}

=== FILE: server.dfy ===
/**
 * The chat server as a sequential state machine. Each locked section of a
 * connection handler, and each broadcast, is one atomic transition on an
 * immutable Server value; `handlers` records where each live handler is,
 * playing the part of the goroutines and of their local client record.
 */
module ChatServer {
  import opened Wrappers
  import opened Text
  import opened Messages
  import opened Registry
  import opened Relay

  /** Where a live connection handler stands. `info` is the handler's own copy of its record. */
  datatype Phase =
    | AwaitingName            // passed the gate; greeting and name not yet dealt with
    | Joining(info: Client)   // registered; join notice and replay still to come
    | Chatting(info: Client)  // in the read loop

  /** A stamped line queued on the message channel, with the connection it came from. */
  datatype ClientMessage = ClientMessage(message: string, sender: ConnId)

  datatype Server = Server(
    clients: Clients,
    history: seq<string>,
    maxClients: int,
    activeClients: int,
    outbox: seq<ClientMessage>,
    handlers: map<ConnId, Phase>)

  /** What a step writes: at most one broadcast notice, and lines to the acting connection itself. */
  datatype Output = Output(notice: Option<Notice>, direct: seq<string>)

  const Silent := Output(None, [])

  datatype Outcome = Outcome(next: Server, out: Output)

  /** A fresh server: no clients, no history, nothing queued. */
  function NewServer(maxClients: int): Server {
    Server(map[], [], maxClients, 0, [], map[])
  }

  /** The number of slots the gate can hand out; a negative limit admits nobody. */
  function Capacity(maxClients: int): nat {
    if maxClients < 0 then 0 else maxClients
  }

  /**
   * What every step keeps, for the code as written and for the corrected
   * greeting alike: the counter is within the cap and at least the number of
   * live handlers; the registry holds exactly the handlers past admission,
   * with the records they hold; names are distinct, non-empty and trimmed.
   */
  ghost predicate Consistent(s: Server) {
    && CounterBounded(s)
    && RegistryMatchesHandlers(s)
    && NamesValid(s.clients)
  }

  /** Every live handler holds a slot, and no more slots are out than the cap allows. */
  ghost predicate CounterBounded(s: Server) {
    |s.handlers| <= s.activeClients <= Capacity(s.maxClients)
  }

  /** Slots counted as taken that no live handler holds. */
  function Leaked(s: Server): int {
    s.activeClients - |s.handlers|
  }

  /** The server invariant: consistent, and the counter counts exactly the live handlers. */
  ghost predicate Valid(s: Server) {
    Consistent(s) && Leaked(s) == 0
  }

  /** The registry holds exactly the handlers past admission, with the records those handlers hold. */
  ghost predicate RegistryMatchesHandlers(s: Server) {
    && (forall c :: c in s.clients <==> c in s.handlers && !s.handlers[c].AwaitingName?)
    && (forall c :: c in s.handlers && !s.handlers[c].AwaitingName? ==> s.clients[c] == s.handlers[c].info)
  }

  /** Registered names are distinct, non-empty and already trimmed. */
  ghost predicate NamesValid(reg: Clients) {
    && NamesDistinct(reg)
    && (forall c :: c in reg ==> AdmissibleName(reg[c].name))
  }

  /** Non-empty, and neither starting nor ending with a space: what a trimmed, non-empty name looks like. */
  predicate AdmissibleName(name: string) {
    name != [] && !IsSpace(name[0]) && !IsSpace(name[|name| - 1])
  }

  // ---------------------------------------------------------------- the gate

  /** handleNewConnection: refuse when the counter has reached the limit, otherwise take a slot. */
  function Gate(s: Server, c: ConnId): Outcome
    requires c !in s.handlers
  {
    if s.activeClients >= s.maxClients then
      Outcome(s, Output(None, [CapacityRefusal]))
    else
      Outcome(s.(activeClients := s.activeClients + 1, handlers := s.handlers[c := AwaitingName]), Silent)
  }

  /** A handler that ends before registering gives its slot back. */
  function Release(s: Server, c: ConnId): Server {
    s.(activeClients := s.activeClients - 1, handlers := s.handlers - {c})
  }

  /** The logo file could not be read: the handler returns, and (corrected) gives its slot back. */
  function AbortGreeting(s: Server, c: ConnId): Outcome
    requires c in s.handlers && s.handlers[c].AwaitingName?
  {
    Outcome(Release(s, c), Silent)
  }

  /** The same return as the code has it: the handler ends but the counter keeps its slot. */
  function AbortGreetingAsWritten(s: Server, c: ConnId): Outcome
    requires c in s.handlers && s.handlers[c].AwaitingName?
  {
    Outcome(s.(handlers := s.handlers - {c}), Silent)
  }

  // ---------------------------------------------------------------- admission

  /** The four ways the name step can end. */
  datatype Verdict = ReadFailed | EmptyName | NameInUse | Accepted(name: string)

  /**
   * The name decision: a failed read, an empty trimmed name, a name already
   * registered, or acceptance of the trimmed name.
   */
  function Admission(reg: Clients, line: Option<string>): (v: Verdict)
    ensures v == ReadFailed <==> line.None?
    ensures v == EmptyName <==> line.Some? && AllSpace(line.value)
    ensures v.Accepted? <==> line.Some? && !AllSpace(line.value) && !NameTaken(reg, TrimSpace(line.value))
    ensures v.Accepted? ==> v.name == TrimSpace(line.value)
    ensures v.Accepted? ==> AdmissibleName(v.name) && TrimSpace(v.name) == v.name && !NameTaken(reg, v.name)
  {
    match line
    case None => ReadFailed
    case Some(raw) =>
      var name := TrimSpace(raw);
      TrimSpaceEmptyIff(raw);
      if name == [] then EmptyName
      else if NameTaken(reg, name) then NameInUse
      else
        TrimSpaceIdempotent(raw);
        TrimSpaceEdges(raw);
        Accepted(name)
  }

  /**
   * The name step of handleClient: on a rejection, write the reason and
   * release the slot; on acceptance, register the connection under the
   * trimmed name.
   */
  function SubmitName(s: Server, c: ConnId, line: Option<string>, from: string): Outcome
    requires c in s.handlers && s.handlers[c].AwaitingName?
  {
    match Admission(s.clients, line)
    case ReadFailed => Outcome(Release(s, c), Silent)
    case EmptyName => Outcome(Release(s, c), Output(None, [EmptyNameRefusal]))
    case NameInUse => Outcome(Release(s, c), Output(None, [NameTakenRefusal]))
    case Accepted(name) =>
      var info := Client(name, from);
      Outcome(s.(clients := s.clients[c := info], handlers := s.handlers[c := Joining(info)]), Silent)
  }

  // ---------------------------------------------------------------- join, chat, leave

  /** Broadcast the join notice, excluding the joiner, then replay the history to the joiner. */
  function Join(s: Server, c: ConnId): Outcome
    requires c in s.handlers && s.handlers[c].Joining?
  {
    var info := s.handlers[c].info;
    var d := Broadcast(s.clients, s.history, JoinNotice(info.name), c);
    Outcome(s.(history := d.history, handlers := s.handlers[c := Chatting(info)]),
            Output(Some(d.notice), Replay(d.history)))
  }

  /** One line read in the read loop: trim it, stamp it and queue it on the message channel. */
  function Speak(s: Server, c: ConnId, raw: string, timestamp: string): Outcome
    requires c in s.handlers && s.handlers[c].Chatting?
  {
    var m := ChatLine(timestamp, s.handlers[c].info.name, TrimSpace(raw));
    Outcome(s.(outbox := s.outbox + [ClientMessage(m, c)]), Silent)
  }

  /** The read failed: broadcast the departure, excluding the leaver, delete the entry, release the slot. */
  function Leave(s: Server, c: ConnId): Outcome
    requires c in s.handlers && s.handlers[c].Chatting?
  {
    var d := Broadcast(s.clients, s.history, LeaveNotice(s.handlers[c].info.name), c);
    Outcome(Release(s.(history := d.history, clients := s.clients - {c}), c),
            Output(Some(d.notice), []))
  }

  // ---------------------------------------------------------------- events and runs

  /** One thing that can happen next on some connection. */
  datatype Event =
    | Connected(conn: ConnId)
    | LogoFailed(conn: ConnId)
    | NameReceived(conn: ConnId, line: Option<string>, from: string)
    | Announce(conn: ConnId)
    | LineReceived(conn: ConnId, raw: string, timestamp: string)
    | ReadError(conn: ConnId)

  /** The event is the next step of its connection's handler. */
  predicate Enabled(s: Server, e: Event) {
    match e
    case Connected(c) => c !in s.handlers
    case LogoFailed(c) => c in s.handlers && s.handlers[c].AwaitingName?
    case NameReceived(c, _, _) => c in s.handlers && s.handlers[c].AwaitingName?
    case Announce(c) => c in s.handlers && s.handlers[c].Joining?
    case LineReceived(c, _, _) => c in s.handlers && s.handlers[c].Chatting?
    case ReadError(c) => c in s.handlers && s.handlers[c].Chatting?
  }

  /**
   * Which return the greeting failure takes: the code's, which keeps the
   * slot, or the corrected one, which gives it back.
   */
  datatype Build = AsWritten | Corrected

  function Step(b: Build, s: Server, e: Event): Outcome
    requires Enabled(s, e)
  {
    match e
    case Connected(c) => Gate(s, c)
    case LogoFailed(c) => if b == AsWritten then AbortGreetingAsWritten(s, c) else AbortGreeting(s, c)
    case NameReceived(c, line, from) => SubmitName(s, c, line, from)
    case Announce(c) => Join(s, c)
    case LineReceived(c, raw, timestamp) => Speak(s, c, raw, timestamp)
    case ReadError(c) => Leave(s, c)
  }

  /** Play a sequence of events; None if one of them is not enabled when its turn comes. */
  function Run(b: Build, s: Server, events: seq<Event>): Option<Server>
    decreases |events|
  {
    if events == [] then Some(s)
    else if !Enabled(s, events[0]) then None
    else Run(b, Step(b, s, events[0]).next, events[1..])
  }

  /** The number of greeting failures in a sequence of events. */
  function GreetingFailures(events: seq<Event>): nat {
    if events == [] then 0
    else (if events[0].LogoFailed? then 1 else 0) + GreetingFailures(events[1..])
  }

  ghost predicate Reachable(b: Build, s: Server) {
    exists maxClients, events :: Run(b, NewServer(maxClients), events) == Some(s)
  }
}

=== FILE: text.dfy ===
/**
 * Whitespace trimming as the server applies it to every line it reads
 * (the requested name and each chat line): Go's strings.TrimSpace, which
 * removes every leading and trailing code point that unicode.IsSpace accepts.
 */
module Text {

  /** Go's unicode.IsSpace: the six ASCII spaces, NEL, NBSP and the other White_Space code points. */
  predicate IsSpace(ch: char) {
    var n := ch as int;
    || n == 0x09 || n == 0x0A || n == 0x0B || n == 0x0C || n == 0x0D || n == 0x20
    || n == 0x85 || n == 0xA0 || n == 0x1680
    || (0x2000 <= n <= 0x200A)
    || n == 0x2028 || n == 0x2029 || n == 0x202F || n == 0x205F || n == 0x3000
  }

  predicate AllSpace(s: string) {
    forall k :: 0 <= k < |s| ==> IsSpace(s[k])
  }

  /** The first position at or after `from` that is not a space, or |s|. */
  function SkipSpaces(s: string, from: nat): (k: nat)
    requires from <= |s|
    ensures from <= k <= |s|
    ensures forall x :: from <= x < k ==> IsSpace(s[x])
    ensures k < |s| ==> !IsSpace(s[k])
    decreases |s| - from
  {
    if from < |s| && IsSpace(s[from]) then SkipSpaces(s, from + 1) else from
  }

  /** The position just after the last non-space before `to`, or 0. */
  function SkipSpacesBack(s: string, to: nat): (k: nat)
    requires to <= |s|
    ensures k <= to
    ensures forall x :: k <= x < to ==> IsSpace(s[x])
    ensures k > 0 ==> !IsSpace(s[k - 1])
  {
    if to > 0 && IsSpace(s[to - 1]) then SkipSpacesBack(s, to - 1) else to
  }

  /**
   * `s[i..j]` is a trimming of `s`: everything outside it is space, and it
   * neither starts nor ends with a space. This is the reference definition
   * TrimSpace is proved against.
   */
  ghost predicate IsTrimOf(s: string, i: int, j: int) {
    && 0 <= i <= j <= |s|
    && (forall k :: 0 <= k < i ==> IsSpace(s[k]))
    && (forall k :: j <= k < |s| ==> IsSpace(s[k]))
    && (i < j ==> !IsSpace(s[i]) && !IsSpace(s[j - 1]))
  }

  /** strings.TrimSpace: cut off the leading spaces, then the trailing ones. */
  function TrimSpace(s: string): string {
    var i := SkipSpaces(s, 0);
    var j := SkipSpacesBack(s, |s|);
    if j <= i then [] else s[i..j]
  }

  /** There is only one trimming of a string. */
  lemma TrimBoundsUnique(s: string, i: int, j: int, i': int, j': int)
    requires IsTrimOf(s, i, j) && IsTrimOf(s, i', j')
    ensures s[i..j] == s[i'..j']
  {
  }

  /** TrimSpace cuts out a trimming of its input: a slice with only spaces outside it and none at its ends. */
  lemma TrimSpaceBounds(s: string) returns (i: int, j: int)
    ensures IsTrimOf(s, i, j) && TrimSpace(s) == s[i..j]
  {
    i := SkipSpaces(s, 0);
    j := SkipSpacesBack(s, |s|);
    if j <= i {
      assert i == |s|;
      i, j := 0, 0;
    }
  }

  /** A non-empty trimmed string neither starts nor ends with a space. */
  lemma TrimSpaceEdges(s: string)
    ensures var r := TrimSpace(s); r != [] ==> !IsSpace(r[0]) && !IsSpace(r[|r| - 1])
  {
    var i, j := TrimSpaceBounds(s);
  }

  /** TrimSpace agrees with the reference definition on every input. */
  lemma TrimSpaceUnique(s: string, i: int, j: int)
    requires IsTrimOf(s, i, j)
    ensures TrimSpace(s) == s[i..j]
  {
    var i', j' := TrimSpaceBounds(s);
    TrimBoundsUnique(s, i, j, i', j');
  }

  /** The trimmed text is empty exactly when the line held nothing but spaces. */
  lemma TrimSpaceEmptyIff(s: string)
    ensures TrimSpace(s) == [] <==> AllSpace(s)
  {
    if AllSpace(s) {
      TrimSpaceUnique(s, 0, 0);
    } else {
      var i, j := TrimSpaceBounds(s);
      if i == j {
        assert false;
      }
    }
  }

  /** Trimming twice is trimming once: a trimmed name is its own trimming. */
  lemma TrimSpaceIdempotent(s: string)
    ensures TrimSpace(TrimSpace(s)) == TrimSpace(s)
  {
    var r := TrimSpace(s);
    var i, j := TrimSpaceBounds(s);
    assert IsTrimOf(r, 0, |r|);
    TrimSpaceUnique(r, 0, |r|);
  }

  /** The newline that ends a line read with ReadString('\n') never survives the trim. */
  lemma TrimSpaceDropsDelimiter(s: string)
    ensures TrimSpace(s + "\n") == TrimSpace(s)
  {
    var i, j := TrimSpaceBounds(s);
    var t := s + "\n";
    assert t[i..j] == s[i..j];
    assert IsTrimOf(t, i, j);
    TrimSpaceUnique(t, i, j);
  }
}

=== FILE: wrappers.dfy ===
/** Optional values: the outcome of a read that may fail, or of a parse that may not match. */
module Wrappers {

  datatype Option<+T> = None | Some(value: T)
}
